=== FILE: README.md ===
# Campus interaction space — client logic in Dafny

This project models the client-side logic of a campus social web application.
The application is a set of React pages over a hosted database with realtime
channels and object storage. Every backend call becomes an input: a `seq` of
rows, or a `Reply` that is either `Ok(rows)` or `Failed`. Every write becomes
the row or patch the page would send, together with the local list the page
keeps afterwards.

Modules follow the source files:

- `FriendRequests` (`friend_requests.dfy`) covers the four-valued friendship
  status and the lookup of the latest request between two users in either
  direction. It also builds the request row, applies the unguarded status
  overwrite, and computes the fetched and the incoming pending lists.
- `FriendSuggestions` (`friend_suggestions.dfy`) builds suggestions. It
  excludes the user's own profile and pending or accepted relationships, and
  counts interests in common. It has the three sort orders, the top-three
  slice, the "See More" link and the removal after a request is sent.
- `StudyGroups` (`study_groups.dfy`) derives the `joined` flag. It models join
  and leave (the count never goes below zero), the case-insensitive search and
  the create form's check.
- `Announcements` (`announcements.dfy`) models the deduplication of the user's
  groups through a JavaScript `Map`. It builds the post row (a group post is
  never public), applies the three-way view filter, and prepends or deletes
  posts in the local list.
- `Admin` (`admin.dfy`) holds the route guard and the announcement add,
  replace-by-id and delete operations. It also covers resource approve and
  reject, the upload check, the storage path with its extension, and the
  status label.
- `SignUp` (`sign_up.dfy`) covers the student e-mail pattern, the length rules
  and the password confirmation.

Five helper modules support them. `Users` declares the user id. `Wrappers`
defines `Option` and `Reply`.
`Lists` defines order-preserving sublists and `Filter`. `Text` defines `trim`,
ASCII case maps, `includes`, and a lexicographic order. `Sorting` defines a
stable insertion sort by key, with sortedness, permutation and stability
proofs.

The model keeps these behaviours of the code:

- Responding to a friend request has no receiver check and no pending-only
  check. A second response overwrites the first (`RespondLastWins`).
- Sending a request makes no duplicate or self-request check.
- The status lookup orders by `created_at` and takes one row, which leaves
  the choice among equal timestamps to the store. The two users' queries also
  list the directions in opposite order. The program's lookup is therefore
  symmetric when the timestamps of the pair's requests are distinct. The
  model breaks ties by taking the first such row in table order, and that
  fixed tie-break makes its own lookup symmetric in every case.

## Model

| member | source | states |
|---|---|---|
| FriendRequests.FriendshipStatus | src/components/FriendRequests.tsx:146-163 | NONE without a user, on a failed query, or when no request links the two users; otherwise the status of a linking request that no other linking request is newer than |
| FriendRequests.Latest | src/components/FriendRequests.tsx:154-155 | the chosen row is one of the rows and no row has a later `created_at` |
| FriendRequests.Between | src/components/FriendRequests.tsx:153 | an order-preserving sublist of the table keeping every copy of each request sent by either user to the other and nothing else |
| FriendRequests.BetweenSymmetric | src/components/FriendRequests.tsx:153 | the two-direction filter selects the same rows whichever user asks |
| FriendRequests.FriendshipStatusSymmetric | src/components/FriendRequests.tsx:150-159 | both users see the same status for their relationship; with the model's table-order tie-break this holds even for equal timestamps, while the program's holds when they are distinct |
| FriendRequests.SendRequest | src/components/FriendRequests.tsx:93-103 | no row without a user; otherwise sender is the user, receiver is the target, status is PENDING, with no self or duplicate check |
| FriendRequests.NewestLinkDecides | src/components/FriendRequests.tsx:150-159 | a request strictly newer than every other request between the pair decides the status both users see |
| FriendRequests.SendThenPending | src/components/FriendRequests.tsx:99-103 | once a sent request is stored with the newest timestamp, sender and receiver both see PENDING |
| FriendRequests.Respond | src/components/FriendRequests.tsx:121-126 | same length; rows with the id take the given status with every other field kept; all other rows are unchanged |
| FriendRequests.RespondLastWins | src/components/FriendRequests.tsx:123-126 | with no status guard, a later response replaces an earlier one, so an accepted request can be set back to pending |
| FriendRequests.RespondDecidesStatus | src/components/FriendRequests.tsx:123-126 | responding to the newest request between two users sets the status both of them then see |
| FriendRequests.FetchPending | src/components/FriendRequests.tsx:45-57 | an order-preserving sublist keeping every copy of each pending request where the user is sender or receiver, and nothing else |
| FriendRequests.Refetch | src/components/FriendRequests.tsx:40-71 | the list is kept without a user or on a failed query; otherwise it is replaced by every copy of each pending request involving the user, in table order |
| FriendRequests.IncomingPending | src/components/FriendRequests.tsx:179-181 | an order-preserving sublist keeping every copy of each pending request whose receiver is the signed-in user, and nothing else; empty without a user |
| FriendRequests.IncomingAfterFetch | src/components/FriendRequests.tsx:179-181 | after a fetch, the displayed list is the table's pending requests addressed to the user, in table order |
| FriendSuggestions.InterestsOf | src/components/FriendSuggestions.tsx:86-88 | each category is listed as many times as the profile's interest rows carry it |
| FriendSuggestions.CommonCount | src/components/FriendSuggestions.tsx:91-93 | the number of positions of the profile's interests whose category the user also has, so at most the interest count; all shared gives the full count, none shared gives zero |
| FriendSuggestions.SuggestionOf | src/components/FriendSuggestions.tsx:85-102 | id, name and avatar are copied; a missing field of study becomes empty; the interests are the profile's own, and the common count is how many of them the user also has |
| FriendSuggestions.Suggestions | src/components/FriendSuggestions.tsx:76-105 | an order-preserving sublist of the per-profile records, so at most one per profile in table order; the own profile never appears; every profile whose own lookup is neither accepted nor pending is suggested |
| FriendSuggestions.SuggestedOnlyEligible | src/components/FriendSuggestions.tsx:76-105 | every suggestion is built from a profile of the table that is not the user's own and whose relationship is neither accepted nor pending |
| FriendSuggestions.RejectedStillSuggested | src/components/FriendSuggestions.tsx:80-83 | a profile whose relationship is REJECTED or NONE is still suggested |
| FriendSuggestions.LookupFailureSuggestsEveryone | src/components/FriendSuggestions.tsx:78-83 | each lookup is a query of its own and a failing one reads as NONE, so a profile whose lookup fails is suggested whatever the others return |
| FriendSuggestions.LoadSuggestions | src/components/FriendSuggestions.tsx:56-115 | the list is kept without a user or when the profiles or interests query fails; otherwise an order-preserving sublist of the per-profile records in which every profile not hidden by an accepted or pending relationship appears and no other does |
| FriendSuggestions.NoOwnInterestsNoCommon | src/components/FriendSuggestions.tsx:91-93 | with an empty list of the user's own interests every common count is zero |
| FriendSuggestions.SortSuggestions | src/components/FriendSuggestions.tsx:127-138 | always a permutation; counts are non-increasing, names or fields are ordered by the comparator; an unknown key returns the list unchanged |
| FriendSuggestions.CommonSortStable | src/components/FriendSuggestions.tsx:130 | suggestions with equal common counts keep their relative order |
| FriendSuggestions.NameSortStable | src/components/FriendSuggestions.tsx:132 | suggestions with equal names keep their relative order |
| FriendSuggestions.FieldSortStable | src/components/FriendSuggestions.tsx:134 | suggestions with equal fields keep their relative order |
| FriendSuggestions.TopThree | src/components/FriendSuggestions.tsx:179 | a prefix of at most three entries, the whole list when it has three or fewer |
| FriendSuggestions.SeeMoreIffHidden | src/components/FriendSuggestions.tsx:204 | "See More" appears exactly when the three shown leave someone out, whatever the sort |
| FriendSuggestions.HandleSendRequest | src/components/FriendSuggestions.tsx:121-125 | sends the request row and drops exactly the suggestions with that id, keeping every other entry with its copies and order, even without a user or on a failed send |
| Sorting.SortBySorted | src/components/FriendSuggestions.tsx:130 | under a strict total order on keys no element is ordered after one whose key comes strictly later |
| Sorting.SortByStable | src/components/FriendSuggestions.tsx:130 | for every key the elements carrying it keep their input order |
| StudyGroups.CreatorName | src/pages/StudyGroups.tsx:91 | a missing or empty creator name becomes 'Unknown'; the result is never empty |
| StudyGroups.FormatGroups | src/pages/StudyGroups.tsx:82-94 | one group per row in order; joined exactly when the id is among the user's memberships; count starts at 0 |
| StudyGroups.Refresh | src/pages/StudyGroups.tsx:59-106 | a failed query on either table keeps the list; otherwise it becomes one formatted group per fetched row, joined exactly when listed among the user's memberships |
| StudyGroups.Join | src/pages/StudyGroups.tsx:157-171 | on success the matching groups become joined with one more member; other groups and failed inserts change nothing; counts stay non-negative |
| StudyGroups.Leave | src/pages/StudyGroups.tsx:187-199 | on success the matching groups become not joined with one member fewer but never below zero; other groups are unchanged |
| StudyGroups.LeaveAfterJoin | src/pages/StudyGroups.tsx:197-199 | leaving right after joining restores every count and leaves the group not joined |
| StudyGroups.LeaveAtZero | src/pages/StudyGroups.tsx:198 | leaving a group with zero members keeps its count at zero |
| StudyGroups.FilterGroups | src/pages/StudyGroups.tsx:215-218 | an order-preserving sublist keeping every copy of each group whose lowercased name or description contains the lowercased term, and nothing else |
| StudyGroups.EmptySearchKeepsAll | src/pages/StudyGroups.tsx:215-218 | an empty search term shows every group in order |
| StudyGroups.SearchIgnoresTermCase | src/pages/StudyGroups.tsx:216-217 | lowercasing the search term does not change the result |
| Text.Contains | src/pages/StudyGroups.tsx:216 | true exactly when the needle occurs at some position of the haystack |
| StudyGroups.CreateGroup | src/pages/StudyGroups.tsx:109-127 | refused exactly when the name or the description is blank after trimming; otherwise the untrimmed fields and the user are inserted |
| StudyGroups.CreateRefusesWhiteSpace | src/pages/StudyGroups.tsx:111 | creation is refused exactly when the name or the description consists only of white space |
| StudyGroups.MembershipRow | src/pages/StudyGroups.tsx:132-165 | the creator of a new group is its 'admin'; a user joining later is a 'member'; group and user are the ones acted on |
| Announcements.DedupeGroups | src/pages/Announcements.tsx:114-117 | distinct ids covering every input id, ordered by first occurrence, each holding its last occurrence's value |
| Announcements.Load | src/pages/Announcements.tsx:82-131 | a failed query keeps both lists; otherwise the posts are replaced and the groups are the member groups followed by the created groups deduplicated as a `Map` does: distinct ids covering them all, first-occurrence order, last-occurrence values |
| Announcements.Submit | src/pages/Announcements.tsx:152-174 | no user, or blank title or content, sends nothing; empty location and group become null; a group post is never public, otherwise the checkbox decides |
| Announcements.ViewOf | src/pages/Announcements.tsx:245-250 | 'all' keeps everything; 'public' keeps every copy of each public post and nothing else; 'groups' does the same for posts with a group; always an order-preserving sublist |
| Announcements.GroupPostOnlyInGroupsView | src/pages/Announcements.tsx:172-173 | a stored post made to a group shows in the groups view and never in the public view |
| Announcements.AddCreated | src/pages/Announcements.tsx:202-204 | a returned row is put in front of the list; no row leaves the list as it was |
| Announcements.Delete | src/pages/Announcements.tsx:217-234 | without a user or on failure nothing changes; otherwise exactly the posts with that id go and every other entry keeps its copies and order |
| Announcements.DeleteUndoesAdd | src/pages/Announcements.tsx:234 | deleting a post just added under a new id gives back the previous list |
| Admin.AccessGuard | src/pages/Admin.tsx:70-89 | no user goes to sign-in, a non-admin goes to the hub, and the lists load only for an admin |
| Admin.AddAnnouncement | src/pages/Admin.tsx:155-182 | nothing is sent when the title or content is blank after trimming; on success the returned rows are put in front of the unchanged list |
| Admin.UpdatePatch | src/pages/Admin.tsx:198-205 | the patch carries the edited title and content and the caller's clock |
| Admin.UpdateAnnouncement | src/pages/Admin.tsx:194-211 | no edit or a failed update changes nothing; otherwise the length and every id are kept, entries with the edited id become the edit, and the others are untouched |
| Admin.UpdateIdempotent | src/pages/Admin.tsx:209-211 | saving the same edit twice gives the same list as saving it once |
| Admin.DeleteAnnouncement | src/pages/Admin.tsx:229-238 | on success exactly the entries with that id go and every other entry keeps its copies and order; a failure changes nothing |
| Admin.DeleteIdempotent | src/pages/Admin.tsx:238 | deleting an id a second time changes nothing |
| Admin.SetStatus | src/pages/Admin.tsx:338 | same length; matching resources change only their status; other resources and failed updates change nothing |
| Admin.Approve | src/pages/Admin.tsx:329-338 | a failed update changes nothing; on success matching resources keep every field but the status, which becomes approved, and are no longer offered approve or reject; others are untouched |
| Admin.Reject | src/pages/Admin.tsx:354-363 | a failed update changes nothing; on success matching resources keep every field but the status, which becomes rejected, and are no longer offered approve or reject; others are untouched |
| Admin.LastDecisionWins | src/pages/Admin.tsx:338-363 | approving then rejecting equals rejecting, and the reverse |
| Admin.StatusLabel | src/pages/Admin.tsx:629 | same length; the first character is upper-cased and the rest is unchanged |
| Admin.StatusLabels | src/pages/Admin.tsx:629 | the three statuses read "Pending", "Approved" and "Rejected" |
| Admin.Extension | src/pages/Admin.tsx:276 | a dot-free suffix of the name that follows its last dot, or the whole name when there is no dot |
| Admin.ExtensionAfterDot | src/pages/Admin.tsx:276 | the extension of a name ending in a dot and a dot-free text is that text |
| Admin.PathLayout | src/pages/Admin.tsx:276-278 | `resources/` + name + `.` + an extension without a dot has exactly that layout, and the extension is read back from the path |
| Admin.UploadPath | src/pages/Admin.tsx:276-278 | the path is `resources/`, then the random name, then a dot, then the uploaded file's extension and nothing else, so the path is exactly `resources/` + name + `.` + extension |
| Admin.Upload | src/pages/Admin.tsx:264-301 | refused exactly when the title, department or type is empty (untrimmed) or no file is chosen; otherwise the row is stored as approved |
| Admin.WhiteSpaceNameAdminOnly | src/pages/Admin.tsx:382 | the admin's group form accepts a white-space name that the study-groups page refuses |
| SignUp.StudentEmailPattern | src/pages/SignUp.tsx:23-26 | the check accepts exactly one or more ASCII digits followed by "@mvula.univen.ac.za" |
| SignUp.NoTrailingText | src/pages/SignUp.tsx:24 | text after the domain is refused because the pattern is anchored |
| SignUp.Issues | src/pages/SignUp.tsx:19-33 | one issue per broken rule: e-mail pattern, name of 2 or more, password of 6 or more, and a mismatch on `confirmPassword` |
| SignUp.ValidIff | src/pages/SignUp.tsx:19-33 | the form is valid exactly when the e-mail matches, the lengths hold and the passwords agree |
| SignUp.ConfirmationDecides | src/pages/SignUp.tsx:30-33 | with the field rules met, validity is password equality and a mismatch is reported on `confirmPassword` alone |

## Left out

- Backend I/O is not modelled. Queries, inserts, updates, deletes, storage
  upload and public URLs appear only as parameters (`Reply`, row sequences,
  `publicUrl`) or as the rows the model returns.
- Realtime channels are left out. On the friend-request and announcements
  pages a change notice re-runs the same query, which `Refetch` and `Load`
  model as a single call. The study-groups page has no channel; `Refresh`
  models its fetch on mount and after a group is created
  (`src/pages/StudyGroups.tsx:53-57`, `:146`).
- React state and effect timing are left out, along with loading flags,
  toasts, navigation and JSX. The user's interests are a parameter, so the
  stale `userInterests` read in `src/components/FriendSuggestions.tsx:92`
  (state set in the same effect) is not modelled. A failure of that query is
  swallowed and leaves the list as it was, which the parameter also covers.
  `NoOwnInterestsNoCommon` states what an empty list gives.
- `Math.random` naming and `Date`/ISO timestamps are left out. They are
  parameters (`token`, `now`, `createdAt` as integers).
- `localeCompare` is replaced by lexicographic order on code points.
  `toLowerCase` and `toUpperCase` are replaced by ASCII case maps. String
  lengths count code points, not UTF-16 units.
- zod's `.email()` check is a library internal and is left out. The model
  follows zod 3, where an object refinement runs even when a field rule has
  failed, so a mismatch is reported alongside field errors.
- `src/pages/SignIn.tsx` and `src/pages/Messages.tsx` are left out. Sign-in
  submits through a simulated timeout, and the messages page shows hardcoded
  sample conversations.
- Presentation-only files are not part of this model: Hub, Profile,
  Marketplace, Index, NotFound, the layout components, routing and build
  configuration.
- The admin page's own study-group fetch and list (`src/pages/Admin.tsx:130-152`)
  only display rows with a zero count and are not modelled.
- `Announcements.Load` assumes the joined group is present in every
  membership row. A null join would throw in the source and leave the lists
  unchanged.
- FriendSuggestions.InterestsOf: the contract states how many times each
  category appears, as often as the profile's rows carry it, but not the
  table order of the list. The order only affects how the interests are
  displayed. The common count depends on the list's multiset alone.

=== FILE: admin.dfy ===
/** The admin dashboard: the access guard, announcement list maintenance,
    resource moderation and upload, and the admin's study-group form. */
module Admin {
  import opened Wrappers
  import opened Users
  import opened Lists
  import opened Text
  import StudyGroups

  /** Where the route guard sends the visitor. */
  datatype Guard = ToSignIn | ToHub | LoadAll

  /** The protecting effect: sign in first, admins only, and only then load
      the three lists. */
  function AccessGuard(user: Option<UserId>, isAdmin: bool): (r: Guard)
    ensures r == ToSignIn <==> user.None?
    ensures r == ToHub <==> user.Some? && !isAdmin
    ensures r == LoadAll <==> user.Some? && isAdmin
  {
    if user.None? then ToSignIn else if !isAdmin then ToHub else LoadAll
  }

  /** An `announcements` row as the dashboard holds it. */
  datatype Post = Post(id: string, title: string, content: string, createdAt: int, updatedAt: int)

  /** The row `handleAddAnnouncement` inserts. */
  datatype NewPost = NewPost(title: string, content: string, createdBy: Option<UserId>)

  /** `handleAddAnnouncement`: the row to insert (none when the title or the
      content is blank after trimming) and the list afterwards, with the rows
      the insert returned in front. */
  function AddAnnouncement(list: seq<Post>, user: Option<UserId>, title: string, content: string,
                           reply: Reply<seq<Post>>): (r: (Option<NewPost>, seq<Post>))
    ensures r.0.None? <==> IsBlank(title) || IsBlank(content)
    ensures r.0.Some? ==> r.0.value == NewPost(title, content, user)
    ensures r.0.None? || reply.Failed? ==> r.1 == list
    ensures r.0.Some? && reply.Ok? ==> |r.1| == |reply.value| + |list|
                                       && r.1[..|reply.value|] == reply.value && r.1[|reply.value|..] == list
  {
    var blank := IsBlank(title) || IsBlank(content);
    if blank then (None, list)
    else if reply.Failed? then (Some(NewPost(title, content, user)), list)
    else
      var added := reply.value + list;
      assert added[..|reply.value|] == reply.value && added[|reply.value|..] == list;
      (Some(NewPost(title, content, user)), added)
  }

  /** The patch `handleUpdateAnnouncement` sends: title, content and the
      caller's clock. */
  datatype PostPatch = PostPatch(title: string, content: string, updatedAt: int)

  function UpdatePatch(editing: Post, now: int): (r: PostPatch)
    ensures r.title == editing.title && r.content == editing.content && r.updatedAt == now
  {
    PostPatch(editing.title, editing.content, now)
  }

  /** `handleUpdateAnnouncement`'s local update: nothing without an entry
      being edited or when the update fails; otherwise every entry with the
      edited id becomes the edited entry. */
  function UpdateAnnouncement(list: seq<Post>, editing: Option<Post>, reply: Reply<()>): (r: seq<Post>)
    ensures |r| == |list|
    ensures editing.None? || reply.Failed? ==> r == list
    ensures forall i :: 0 <= i < |list| ==> r[i].id == list[i].id
    ensures editing.Some? ==> forall i :: 0 <= i < |list| && list[i].id != editing.value.id ==> r[i] == list[i]
    ensures editing.Some? && reply.Ok? ==>
              forall i :: 0 <= i < |list| && list[i].id == editing.value.id ==> r[i] == editing.value
  {
    match (editing, reply)
    case (Some(e), Ok(_)) =>
      seq(|list|, i requires 0 <= i < |list| => if list[i].id == e.id then e else list[i])
    case _ => list
  }

  /** Saving the same edit twice changes nothing more. */
  lemma UpdateIdempotent(list: seq<Post>, editing: Post)
    ensures UpdateAnnouncement(UpdateAnnouncement(list, Some(editing), Ok(())), Some(editing), Ok(()))
         == UpdateAnnouncement(list, Some(editing), Ok(()))
  {
  }

  /** `handleDeleteAnnouncement`: after a successful delete the entries with
      that id are gone and the rest keep their order. */
  function DeleteAnnouncement(list: seq<Post>, id: string, reply: Reply<()>): (r: seq<Post>)
    ensures Sublist(r, list)
    ensures reply.Failed? ==> r == list
    ensures reply.Ok? ==> forall p :: p in r <==> p in list && p.id != id
    ensures reply.Ok? ==> forall p :: multiset(r)[p] == if p.id != id then multiset(list)[p] else 0
  {
    if reply.Failed? then
      SublistRefl(list);
      list
    else Filter((p: Post) => p.id != id, list)
  }

  /** Deleting an id twice is the same as deleting it once. */
  lemma DeleteIdempotent(list: seq<Post>, id: string)
    ensures DeleteAnnouncement(DeleteAnnouncement(list, id, Ok(())), id, Ok(())) == DeleteAnnouncement(list, id, Ok(()))
  {
  }

  datatype ResourceStatus = Pending | Approved | Rejected

  /** A `resources` row. */
  datatype Resource = Resource(
    id: string,
    title: string,
    department: string,
    resourceType: string,
    fileUrl: string,
    createdAt: int,
    createdBy: Option<UserId>,
    status: ResourceStatus)

  /** Approve and reject are offered for pending resources only. */
  predicate ActionsOffered(r: Resource) {
    r.status == Pending
  }

  /** The local list after `update({ status }).eq('id', id)`: only the status
      of the matching resources changes. */
  function SetStatus(list: seq<Resource>, id: string, status: ResourceStatus, reply: Reply<()>): (r: seq<Resource>)
    ensures |r| == |list|
    ensures reply.Failed? ==> r == list
    ensures forall i :: 0 <= i < |list| && list[i].id != id ==> r[i] == list[i]
    ensures reply.Ok? ==> forall i :: 0 <= i < |list| && list[i].id == id ==> r[i] == list[i].(status := status)
  {
    if reply.Failed? then list
    else seq(|list|, i requires 0 <= i < |list| => if list[i].id == id then list[i].(status := status) else list[i])
  }

  /** `handleApproveResource`. */
  function Approve(list: seq<Resource>, id: string, reply: Reply<()>): (r: seq<Resource>)
    ensures |r| == |list|
    ensures reply.Failed? ==> r == list
    ensures reply.Ok? ==> forall x :: x in r && x.id == id ==> x.status == Approved && !ActionsOffered(x)
    ensures reply.Ok? ==> forall i :: 0 <= i < |list| && list[i].id == id ==> r[i] == list[i].(status := Approved)
    ensures forall i :: 0 <= i < |list| && list[i].id != id ==> r[i] == list[i]
  {
    SetStatus(list, id, Approved, reply)
  }

  /** `handleRejectResource`. */
  function Reject(list: seq<Resource>, id: string, reply: Reply<()>): (r: seq<Resource>)
    ensures |r| == |list|
    ensures reply.Failed? ==> r == list
    ensures reply.Ok? ==> forall x :: x in r && x.id == id ==> x.status == Rejected && !ActionsOffered(x)
    ensures reply.Ok? ==> forall i :: 0 <= i < |list| && list[i].id == id ==> r[i] == list[i].(status := Rejected)
    ensures forall i :: 0 <= i < |list| && list[i].id != id ==> r[i] == list[i]
  {
    SetStatus(list, id, Rejected, reply)
  }

  /** The last successful moderation decision is the one that stays. */
  lemma LastDecisionWins(list: seq<Resource>, id: string)
    ensures Reject(Approve(list, id, Ok(())), id, Ok(())) == Reject(list, id, Ok(()))
    ensures Approve(Reject(list, id, Ok(())), id, Ok(())) == Approve(list, id, Ok(()))
  {
  }

  /** The status as stored. */
  function StatusText(s: ResourceStatus): string {
    match s
    case Pending => "pending"
    case Approved => "approved"
    case Rejected => "rejected"
  }

  /** `status.charAt(0).toUpperCase() + status.slice(1)`. */
  function StatusLabel(status: string): (r: string)
    ensures |r| == |status|
    ensures |status| > 0 ==> r[0] == UpperChar(status[0]) && r[1..] == status[1..]
  {
    if |status| == 0 then "" else [UpperChar(status[0])] + status[1..]
  }

  lemma StatusLabels()
    ensures StatusLabel(StatusText(Pending)) == "Pending"
    ensures StatusLabel(StatusText(Approved)) == "Approved"
    ensures StatusLabel(StatusText(Rejected)) == "Rejected"
  {
    assert UpperChar('p') == 'P' && "pending"[1..] == "ending";
    assert UpperChar('a') == 'A' && "approved"[1..] == "pproved";
    assert UpperChar('r') == 'R' && "rejected"[1..] == "ejected";
  }

  /** `name.split('.').pop()`: the text after the last '.', the whole name
      when there is none. */
  function Extension(name: string): (r: string)
    ensures '.' !in r
    ensures |r| <= |name| && r == name[|name| - |r|..]
    ensures '.' !in name ==> r == name
    ensures '.' in name ==> |r| < |name| && name[|name| - |r| - 1] == '.'
  {
    if |name| == 0 then ""
    else if name[|name| - 1] == '.' then ""
    else
      var ext := Extension(name[..|name| - 1]);
      ExtensionStep(name, ext);
      ext + [name[|name| - 1]]
  }

  /** A name not ending in '.' has the extension of the name without its last
      character, extended by that character. */
  lemma ExtensionStep(name: string, ext: string)
    requires |name| > 0 && name[|name| - 1] != '.'
    requires var init := name[..|name| - 1];
      && '.' !in ext && |ext| <= |init| && ext == init[|init| - |ext|..]
      && ('.' !in init ==> ext == init)
      && ('.' in init ==> |ext| < |init| && init[|init| - |ext| - 1] == '.')
    ensures var r := ext + [name[|name| - 1]];
      && '.' !in r && |r| <= |name| && r == name[|name| - |r|..]
      && ('.' !in name ==> r == name)
      && ('.' in name ==> |r| < |name| && name[|name| - |r| - 1] == '.')
  {
    var init, last := name[..|name| - 1], name[|name| - 1];
    assert name == init + [last];
    assert '.' in name <==> '.' in init;
    assert name[|name| - |ext| - 1..] == init[|init| - |ext|..] + [last];
  }

  /** The extension is read back from any name that ends with it after a dot. */
  lemma {:induction false} ExtensionAfterDot(prefix: string, ext: string)
    requires '.' !in ext
    ensures Extension(prefix + "." + ext) == ext
    decreases |ext|
  {
    var name := prefix + "." + ext;
    if |ext| > 0 {
      var init := ext[..|ext| - 1];
      assert name[..|name| - 1] == prefix + "." + init;
      ExtensionAfterDot(prefix, init);
      assert ext == init + [ext[|ext| - 1]];
    }
  }

  /** The layout of `resources/` + name + `.` + an extension without a dot. */
  lemma PathLayout(token: string, ext: string)
    requires '.' !in ext
    ensures var r := "resources/" + token + "." + ext;
      && |r| == 11 + |token| + |ext| && r[..10] == "resources/"
      && r[10..10 + |token|] == token && r[10 + |token|] == '.'
      && r[11 + |token|..] == ext && Extension(r) == ext
  {
    var r := "resources/" + token + "." + ext;
    assert r[..10] == "resources/";
    assert r[10..10 + |token|] == token;
    assert r[11 + |token|..] == ext;
    ExtensionAfterDot("resources/" + token, ext);
  }

  /** `resources/` + random name + `.` + extension. */
  function UploadPath(fileName: string, token: string): (r: string)
    ensures |r| > 10 + |token| && r[..10] == "resources/"
    ensures r[10..10 + |token|] == token && r[10 + |token|] == '.'
    ensures Extension(r) == Extension(fileName)
    ensures |r| == 11 + |token| + |Extension(fileName)| && r[11 + |token|..] == Extension(fileName)
  {
    var ext := Extension(fileName);
    PathLayout(token, ext);
    "resources/" + token + "." + ext
  }

  /** The resource form; `file` is the chosen file's name. */
  datatype ResourceForm = ResourceForm(title: string, department: string, resourceType: string, file: Option<string>)

  /** The row inserted for an uploaded resource. */
  datatype NewResource = NewResource(
    title: string,
    department: string,
    resourceType: string,
    fileUrl: string,
    createdBy: Option<UserId>,
    status: ResourceStatus)

  datatype UploadPlan = UploadPlan(path: string, row: NewResource)

  /** `handleUploadResource`: every field and a file are required (the text
      fields are not trimmed); the stored path keeps the file's extension and
      an admin's upload is approved at once. */
  function Upload(form: ResourceForm, user: Option<UserId>, token: string, publicUrl: string): (r: Option<UploadPlan>)
    ensures r.None? <==> form.title == "" || form.department == "" || form.resourceType == "" || form.file.None?
    ensures r.Some? ==> r.value.path == UploadPath(form.file.value, token)
                        && Extension(r.value.path) == Extension(form.file.value)
    ensures r.Some? ==> r.value.row == NewResource(form.title, form.department, form.resourceType, publicUrl, user, Approved)
  {
    if form.title == "" || form.department == "" || form.resourceType == "" || form.file.None? then None
    else Some(UploadPlan(UploadPath(form.file.value, token),
                         NewResource(form.title, form.department, form.resourceType, publicUrl, user, Approved)))
  }

  /** `handleCreateStudyGroup`'s check: both fields non-empty, untrimmed. */
  predicate StudyGroupFormValid(name: string, description: string) {
    name != "" && description != ""
  }

  /** The admin form accepts a white-space name that the study-groups page
      refuses. */
  lemma WhiteSpaceNameAdminOnly(user: Option<UserId>, description: string)
    requires !IsBlank(description)
    ensures StudyGroupFormValid(" ", description)
    ensures StudyGroups.CreateGroup(user, " ", description).None?
  {
    BlankIffAllSpace(" ");
  }
}

=== FILE: announcements.dfy ===
/** The announcements page: the user's groups, composing a post, the three
    views, and the local list after create and delete. */
module Announcements {
  import opened Wrappers
  import opened Users
  import opened Lists
  import opened Text

  /** A study group offered as a post target. */
  datatype Group = Group(id: string, name: string, description: string, createdBy: UserId, createdAt: int)

  /** An `announcements` row. */
  datatype Announcement = Announcement(
    id: string,
    title: string,
    content: string,
    eventDate: Option<int>,
    location: Option<string>,
    createdBy: UserId,
    groupId: Option<string>,
    isPublic: bool,
    createdAt: int)

  /** The ids of `gs`, position by position. */
  function Ids(gs: seq<Group>): (r: seq<string>)
    ensures |r| == |gs|
    ensures forall i :: 0 <= i < |gs| ==> r[i] == gs[i].id
  {
    seq(|gs|, i requires 0 <= i < |gs| => gs[i].id)
  }

  /** The position of the first group with `id`. */
  ghost function FirstIndex(gs: seq<Group>, id: string): (k: nat)
    requires id in Ids(gs)
    ensures k < |gs| && gs[k].id == id
    ensures forall j :: 0 <= j < k ==> gs[j].id != id
  {
    if gs[0].id == id then 0
    else
      assert id in Ids(gs[1..]) by {
        var i :| 0 <= i < |gs| && Ids(gs)[i] == id;
        assert Ids(gs[1..])[i - 1] == id;
      }
      1 + FirstIndex(gs[1..], id)
  }

  /** The position of the last group with `id`. */
  ghost function LastIndex(gs: seq<Group>, id: string): (k: nat)
    requires id in Ids(gs)
    ensures k < |gs| && gs[k].id == id
    ensures forall j :: k < j < |gs| ==> gs[j].id != id
    decreases |gs|
  {
    if gs[|gs| - 1].id == id then |gs| - 1
    else
      assert id in Ids(gs[..|gs| - 1]) by {
        var i :| 0 <= i < |gs| && Ids(gs)[i] == id;
        assert Ids(gs[..|gs| - 1])[i] == id;
      }
      LastIndex(gs[..|gs| - 1], id)
  }

  /** The position of a group with `id` in `gs`, or `|gs|` when there is none. */
  function IndexOfId(gs: seq<Group>, id: string): (k: nat)
    ensures k <= |gs|
    ensures k < |gs| ==> gs[k].id == id
    ensures k == |gs| ==> id !in Ids(gs)
  {
    if |gs| == 0 then 0
    else if gs[0].id == id then 0
    else
      var k := IndexOfId(gs[1..], id);
      assert Ids(gs) == [gs[0].id] + Ids(gs[1..]);
      k + 1
  }

  lemma IdsAppend(gs: seq<Group>, g: Group)
    ensures Ids(gs + [g]) == Ids(gs) + [g.id]
  {
  }

  /** Appending a group moves neither the first nor, for other ids, the last
      occurrence of an id already present. */
  lemma IndexesAfterAppend(gs: seq<Group>, g: Group, id: string)
    requires id in Ids(gs)
    ensures id in Ids(gs + [g])
    ensures FirstIndex(gs + [g], id) == FirstIndex(gs, id)
    ensures id != g.id ==> LastIndex(gs + [g], id) == LastIndex(gs, id)
  {
    IdsAppend(gs, g);
    var f, f' := FirstIndex(gs, id), FirstIndex(gs + [g], id);
    assert (gs + [g])[f] == gs[f];
    if id != g.id {
      var l, l' := LastIndex(gs, id), LastIndex(gs + [g], id);
      assert (gs + [g])[l] == gs[l];
    }
  }

  /** `r` is the deduplication of `gs`: distinct ids, the same id set, last
      values, first-occurrence order. */
  ghost predicate Deduped(r: seq<Group>, gs: seq<Group>) {
    && (forall i, j :: 0 <= i < j < |r| ==> r[i].id != r[j].id)
    && (forall id :: id in Ids(r) <==> id in Ids(gs))
    && (forall i :: 0 <= i < |r| ==> r[i].id in Ids(gs) && r[i] == gs[LastIndex(gs, r[i].id)])
    && (forall i, j :: 0 <= i < j < |r| ==> FirstIndex(gs, r[i].id) < FirstIndex(gs, r[j].id))
  }

  /** A repeated id: the entry keeps its place and takes the new value. */
  lemma ReplaceStep(r: seq<Group>, gs: seq<Group>, g: Group, k: nat)
    requires Deduped(r, gs)
    requires k < |r| && r[k].id == g.id
    ensures Deduped(r[k := g], gs + [g])
  {
    var r' := r[k := g];
    var gs' := gs + [g];
    IdsAppend(gs, g);
    assert Ids(r') == Ids(r);
    forall i | 0 <= i < |r|
      ensures r'[i].id == r[i].id
      ensures FirstIndex(gs', r[i].id) == FirstIndex(gs, r[i].id)
      ensures i != k ==> LastIndex(gs', r[i].id) == LastIndex(gs, r[i].id)
    {
      IndexesAfterAppend(gs, g, r[i].id);
    }
    forall i | 0 <= i < |r'|
      ensures r'[i].id in Ids(gs') && r'[i] == gs'[LastIndex(gs', r'[i].id)]
    {
      if i != k {
        assert gs'[LastIndex(gs, r[i].id)] == gs[LastIndex(gs, r[i].id)];
      }
    }
  }

  /** A new id: the group goes at the end. */
  lemma AppendStep(r: seq<Group>, gs: seq<Group>, g: Group)
    requires Deduped(r, gs)
    requires g.id !in Ids(r)
    ensures Deduped(r + [g], gs + [g])
  {
    var r' := r + [g];
    var gs' := gs + [g];
    IdsAppend(gs, g);
    IdsAppend(r, g);
    forall i | 0 <= i < |r|
      ensures FirstIndex(gs', r[i].id) == FirstIndex(gs, r[i].id)
      ensures LastIndex(gs', r[i].id) == LastIndex(gs, r[i].id)
      ensures gs'[LastIndex(gs, r[i].id)] == gs[LastIndex(gs, r[i].id)]
    {
      assert r[i].id in Ids(r);
      IndexesAfterAppend(gs, g, r[i].id);
    }
    assert FirstIndex(gs', g.id) == |gs|;
    assert r'[|r|] == g;
  }

  /** `map.set(g.id, g)` on the map's values in insertion order: a known id
      keeps its place and takes the new value, a new id goes at the end. */
  function MapSet(r: seq<Group>, g: Group): seq<Group> {
    var k := IndexOfId(r, g.id);
    if k < |r| then r[k := g] else r + [g]
  }

  /** One more group seen keeps the deduplication invariant. */
  lemma DedupeStep(r: seq<Group>, groups: seq<Group>, n: nat)
    requires n < |groups| && Deduped(r, groups[..n])
    ensures Deduped(MapSet(r, groups[n]), groups[..n + 1])
  {
    var g := groups[n];
    assert groups[..n + 1] == groups[..n] + [g];
    var k := IndexOfId(r, g.id);
    if k < |r| {
      ReplaceStep(r, groups[..n], g, k);
    } else {
      AppendStep(r, groups[..n], g);
    }
  }

  /** `Array.from(new Map(groups.map(g => [g.id, g])).values())`: one group
      per id, ordered by the id's first occurrence, holding the value of its
      last occurrence. */
  method DedupeGroups(groups: seq<Group>) returns (r: seq<Group>)
    ensures forall i, j :: 0 <= i < j < |r| ==> r[i].id != r[j].id
    ensures forall id :: id in Ids(r) <==> id in Ids(groups)
    ensures forall i :: 0 <= i < |r| ==> r[i].id in Ids(groups) && r[i] == groups[LastIndex(groups, r[i].id)]
    ensures forall i, j :: 0 <= i < j < |r| ==> FirstIndex(groups, r[i].id) < FirstIndex(groups, r[j].id)
  {
    r := [];
    var n := 0;
    while n < |groups|
      invariant 0 <= n <= |groups|
      invariant Deduped(r, groups[..n])
    {
      DedupeStep(r, groups, n);
      r := MapSet(r, groups[n]);
      n := n + 1;
    }
    assert groups[..n] == groups;
  }

  /** The post form's state. */
  datatype Draft = Draft(
    title: string,
    content: string,
    location: string,
    eventDate: Option<int>,
    isPublic: bool,
    selectedGroup: Option<string>)

  /** The row `handleSubmit` inserts. */
  datatype NewAnnouncement = NewAnnouncement(
    title: string,
    content: string,
    eventDate: Option<int>,
    location: Option<string>,
    createdBy: UserId,
    groupId: Option<string>,
    isPublic: bool)

  datatype SubmitOutcome = NotSignedIn | MissingInformation | Insert(row: NewAnnouncement)

  /** `selectedGroup` is JavaScript-truthy: present and not empty. */
  predicate GroupChosen(selected: Option<string>) {
    selected.Some? && selected.value != ""
  }

  /** `handleSubmit`'s checks and the row it builds. Optional fields become
      null when empty, and a post to a group is never public. */
  function Submit(user: Option<UserId>, d: Draft): (r: SubmitOutcome)
    ensures r.NotSignedIn? <==> user.None?
    ensures user.Some? ==> (r.MissingInformation? <==> IsBlank(d.title) || IsBlank(d.content))
    ensures r.Insert? ==>
              r.row.title == d.title && r.row.content == d.content && r.row.createdBy == user.value
              && r.row.eventDate == d.eventDate
    ensures r.Insert? ==> (r.row.location.None? <==> d.location == "")
                          && (r.row.location.Some? ==> r.row.location.value == d.location)
    ensures r.Insert? ==> (r.row.groupId.Some? <==> GroupChosen(d.selectedGroup))
                          && (r.row.groupId.Some? ==> r.row.groupId == d.selectedGroup)
    ensures r.Insert? ==> (r.row.groupId.Some? ==> !r.row.isPublic)
                          && (r.row.groupId.None? ==> r.row.isPublic == d.isPublic)
  {
    match user
    case None => NotSignedIn
    case Some(me) =>
      if IsBlank(d.title) || IsBlank(d.content) then MissingInformation
      else
        var chosen := GroupChosen(d.selectedGroup);
        Insert(NewAnnouncement(
          d.title, d.content, d.eventDate,
          if d.location == "" then None else Some(d.location),
          me,
          if chosen then d.selectedGroup else None,
          if chosen then false else d.isPublic))
  }

  /** The row the store returns for an insert. */
  function Stored(row: NewAnnouncement, id: string, createdAt: int): Announcement {
    Announcement(id, row.title, row.content, row.eventDate, row.location, row.createdBy, row.groupId,
                 row.isPublic, createdAt)
  }

  /** The list's filter selector. */
  datatype View = All | PublicOnly | GroupsOnly

  /** `filteredAnnouncements`. */
  function ViewOf(list: seq<Announcement>, view: View): (r: seq<Announcement>)
    ensures Sublist(r, list)
    ensures view == All ==> r == list
    ensures view == PublicOnly ==> forall a :: a in r <==> a in list && a.isPublic
    ensures view == GroupsOnly ==> forall a :: a in r <==> a in list && a.groupId.Some?
    ensures view == PublicOnly ==> forall a :: multiset(r)[a] == if a.isPublic then multiset(list)[a] else 0
    ensures view == GroupsOnly ==> forall a :: multiset(r)[a] == if a.groupId.Some? then multiset(list)[a] else 0
  {
    match view
    case All =>
      SublistRefl(list);
      list
    case PublicOnly => Filter((a: Announcement) => a.isPublic, list)
    case GroupsOnly => Filter((a: Announcement) => a.groupId.Some?, list)
  }

  /** A post made to a group shows under "Study Groups" and never under
      "Public Only". */
  lemma GroupPostOnlyInGroupsView(user: Option<UserId>, d: Draft, id: string, createdAt: int, list: seq<Announcement>)
    requires Submit(user, d).Insert? && GroupChosen(d.selectedGroup)
    ensures var a := Stored(Submit(user, d).row, id, createdAt);
            a in ViewOf([a] + list, GroupsOnly) && a !in ViewOf([a] + list, PublicOnly)
  {
  }

  /** The local list after a successful insert: the returned row, if any, in front. */
  function AddCreated(list: seq<Announcement>, created: Option<Announcement>): (r: seq<Announcement>)
    ensures created.None? ==> r == list
    ensures created.Some? ==> |r| == |list| + 1 && r[0] == created.value && r[1..] == list
  {
    match created
    case None => list
    case Some(a) => [a] + list
  }

  /** `deleteAnnouncement`: nothing without a user or when the delete fails;
      otherwise every entry with that id goes and the rest keep their order. */
  function Delete(user: Option<UserId>, list: seq<Announcement>, id: string, reply: Reply<()>): (r: seq<Announcement>)
    ensures user.None? || reply.Failed? ==> r == list
    ensures Sublist(r, list)
    ensures user.Some? && reply.Ok? ==> forall a :: a in r <==> a in list && a.id != id
    ensures user.Some? && reply.Ok? ==> forall a :: multiset(r)[a] == if a.id != id then multiset(list)[a] else 0
  {
    if user.None? || reply.Failed? then
      SublistRefl(list);
      list
    else Filter((a: Announcement) => a.id != id, list)
  }

  /** Deleting a post just created with a new id gives back the old list. */
  lemma DeleteUndoesAdd(user: UserId, list: seq<Announcement>, a: Announcement)
    requires forall b :: b in list ==> b.id != a.id
    ensures Delete(Some(user), AddCreated(list, Some(a)), a.id, Ok(())) == list
  {
    assert forall i :: 0 <= i < |list| ==> list[i].id != a.id;
  }

  /** The page's load: the posts and the deduplicated groups the user belongs
      to or created. A failed query leaves both lists as they were. */
  method Load(posts: seq<Announcement>, groups: seq<Group>,
              postRows: Reply<seq<Announcement>>, memberGroups: Reply<seq<Group>>, createdGroups: Reply<seq<Group>>)
    returns (newPosts: seq<Announcement>, newGroups: seq<Group>)
    ensures postRows.Failed? || memberGroups.Failed? || createdGroups.Failed? ==>
              newPosts == posts && newGroups == groups
    ensures postRows.Ok? && memberGroups.Ok? && createdGroups.Ok? ==>
              newPosts == postRows.value
              && (forall id :: id in Ids(newGroups) <==> id in Ids(memberGroups.value + createdGroups.value))
              && (forall i, j :: 0 <= i < j < |newGroups| ==> newGroups[i].id != newGroups[j].id)
    ensures postRows.Ok? && memberGroups.Ok? && createdGroups.Ok? ==>
              Deduped(newGroups, memberGroups.value + createdGroups.value)
  {
    if postRows.Failed? || memberGroups.Failed? || createdGroups.Failed? {
      return posts, groups;
    }
    newGroups := DedupeGroups(memberGroups.value + createdGroups.value);
    newPosts := postRows.value;
  }
}

=== FILE: friend_requests.dfy ===
/** The friend-request hook: relationship status lookup, request creation,
    the response update and the two pending-request lists. */
module FriendRequests {
  import opened Wrappers
  import opened Users
  import opened Lists

  /** The four relationship states; `NoStatus` is the enum's `NONE`. */
  datatype FriendStatus = NoStatus | Pending | Accepted | Rejected

  /** A stored row of the `friend_requests` table. */
  datatype FriendRequest = FriendRequest(
    id: string,
    senderId: UserId,
    receiverId: UserId,
    status: FriendStatus,
    createdAt: int)

  /** The row the client inserts; the store assigns `id` and `created_at`. */
  datatype NewRequest = NewRequest(senderId: UserId, receiverId: UserId, status: FriendStatus)

  /** The row the store keeps for an inserted request. */
  function Stored(row: NewRequest, id: string, createdAt: int): FriendRequest {
    FriendRequest(id, row.senderId, row.receiverId, row.status, createdAt)
  }

  /** `x` is a request between `a` and `b`, in either direction. */
  predicate Links(x: FriendRequest, a: UserId, b: UserId) {
    (x.senderId == a && x.receiverId == b) || (x.senderId == b && x.receiverId == a)
  }

  /** The rows matched by the lookup's `or(and(...),and(...))` filter. */
  function Between(rows: seq<FriendRequest>, a: UserId, b: UserId): (r: seq<FriendRequest>)
    ensures Sublist(r, rows)
    ensures forall x :: x in r <==> x in rows && Links(x, a, b)
    ensures forall x :: multiset(r)[x] == if Links(x, a, b) then multiset(rows)[x] else 0
  {
    Filter((x: FriendRequest) => Links(x, a, b), rows)
  }

  lemma BetweenSymmetric(rows: seq<FriendRequest>, a: UserId, b: UserId)
    ensures Between(rows, a, b) == Between(rows, b, a)
  {
    FilterCongruent((x: FriendRequest) => Links(x, a, b), (x: FriendRequest) => Links(x, b, a), rows);
  }

  /** The first row of `.order('created_at', { ascending: false }).limit(1)`;
      among rows with the same timestamp the earliest in table order. */
  function Latest(rs: seq<FriendRequest>): (r: FriendRequest)
    requires |rs| > 0
    ensures r in rs
    ensures forall x :: x in rs ==> x.createdAt <= r.createdAt
  {
    if |rs| == 1 then rs[0]
    else
      var rest := Latest(rs[1..]);
      assert forall x :: x in rs ==> x == rs[0] || x in rs[1..];
      if rs[0].createdAt >= rest.createdAt then rs[0] else rest
  }

  /** `checkFriendshipStatus`: the status of the most recent request between
      the signed-in user and `other`, and `NoStatus` without a user, without
      such a request or when the lookup fails. */
  function FriendshipStatus(user: Option<UserId>, other: UserId, table: Reply<seq<FriendRequest>>): (r: FriendStatus)
    ensures user.None? || table.Failed? ==> r == NoStatus
    ensures user.Some? && table.Ok? && (forall x :: x in table.value ==> !Links(x, user.value, other))
            ==> r == NoStatus
    ensures user.Some? && table.Ok? && (exists x :: x in table.value && Links(x, user.value, other))
            ==> exists x :: x in table.value && Links(x, user.value, other) && r == x.status
                 && forall y :: y in table.value && Links(y, user.value, other) ==> y.createdAt <= x.createdAt
  {
    match (user, table)
    case (Some(me), Ok(rows)) =>
      var matches := Between(rows, me, other);
      if |matches| == 0 then NoStatus else Latest(matches).status
    case _ => NoStatus
  }

  /** The relationship is the same seen from either user. */
  lemma FriendshipStatusSymmetric(a: UserId, b: UserId, table: Reply<seq<FriendRequest>>)
    ensures FriendshipStatus(Some(a), b, table) == FriendshipStatus(Some(b), a, table)
  {
    if table.Ok? {
      BetweenSymmetric(table.value, a, b);
    }
  }

  /** `sendFriendRequest`: the row to insert, or nothing without a user. No
      duplicate or self-request check is made. */
  function SendRequest(user: Option<UserId>, receiverId: UserId): (r: Option<NewRequest>)
    ensures r.None? <==> user.None?
    ensures r.Some? ==>
              r.value.senderId == user.value && r.value.receiverId == receiverId && r.value.status == Pending
  {
    match user
    case None => None
    case Some(me) => Some(NewRequest(me, receiverId, Pending))
  }

  /** A request strictly newer than every other request between its two
      users decides the status both of them see. */
  lemma NewestLinkDecides(rows: seq<FriendRequest>, k: nat, a: UserId, b: UserId)
    requires k < |rows| && Links(rows[k], a, b)
    requires forall i :: 0 <= i < |rows| && i != k && Links(rows[i], a, b) ==> rows[i].createdAt < rows[k].createdAt
    ensures FriendshipStatus(Some(a), b, Ok(rows)) == rows[k].status
    ensures FriendshipStatus(Some(b), a, Ok(rows)) == rows[k].status
  {
    assert rows[k] in rows;
    var w :| w in rows && Links(w, a, b) && FriendshipStatus(Some(a), b, Ok(rows)) == w.status
             && forall y :: y in rows && Links(y, a, b) ==> y.createdAt <= w.createdAt;
    var j :| 0 <= j < |rows| && rows[j] == w;
    if j != k {
      assert false;
    }
    FriendshipStatusSymmetric(a, b, Ok(rows));
  }

  /** Once a request is stored with a timestamp later than every earlier
      request between the pair, both users see `Pending`. */
  lemma SendThenPending(rows: seq<FriendRequest>, a: UserId, b: UserId, id: string, now: int)
    requires forall x :: x in rows && Links(x, a, b) ==> x.createdAt < now
    ensures var table := Ok(rows + [Stored(SendRequest(Some(a), b).value, id, now)]);
            FriendshipStatus(Some(a), b, table) == Pending && FriendshipStatus(Some(b), a, table) == Pending
  {
    var all := rows + [Stored(SendRequest(Some(a), b).value, id, now)];
    forall i | 0 <= i < |all| && i != |rows| && Links(all[i], a, b)
      ensures all[i].createdAt < now
    {
      assert all[i] == rows[i];
    }
    NewestLinkDecides(all, |rows|, a, b);
  }

  /** `respondToFriendRequest`: the table after `update({ status }).eq('id', requestId)`.
      Any status is written, whatever the current one is. */
  function Respond(rows: seq<FriendRequest>, requestId: string, status: FriendStatus): (r: seq<FriendRequest>)
    ensures |r| == |rows|
    ensures forall i :: 0 <= i < |rows| && rows[i].id == requestId ==> r[i].status == status
    ensures forall i :: 0 <= i < |rows| ==>
              r[i].id == rows[i].id && r[i].senderId == rows[i].senderId
              && r[i].receiverId == rows[i].receiverId && r[i].createdAt == rows[i].createdAt
    ensures forall i :: 0 <= i < |rows| && rows[i].id != requestId ==> r[i] == rows[i]
  {
    seq(|rows|, i requires 0 <= i < |rows| =>
      if rows[i].id == requestId then rows[i].(status := status) else rows[i])
  }

  /** Without a status guard a second response replaces the first, so an
      accepted request can be turned back to any status. */
  lemma RespondLastWins(rows: seq<FriendRequest>, requestId: string, first: FriendStatus, second: FriendStatus)
    ensures Respond(Respond(rows, requestId, first), requestId, second) == Respond(rows, requestId, second)
  {
  }

  /** Responding to the latest request between two users decides the status
      both of them see. */
  lemma RespondDecidesStatus(rows: seq<FriendRequest>, k: nat, status: FriendStatus)
    requires k < |rows|
    requires forall i :: 0 <= i < |rows| && i != k && Links(rows[i], rows[k].senderId, rows[k].receiverId)
               ==> rows[i].createdAt < rows[k].createdAt
    ensures var table := Ok(Respond(rows, rows[k].id, status));
            FriendshipStatus(Some(rows[k].senderId), rows[k].receiverId, table) == status
            && FriendshipStatus(Some(rows[k].receiverId), rows[k].senderId, table) == status
  {
    var a, b := rows[k].senderId, rows[k].receiverId;
    var after := Respond(rows, rows[k].id, status);
    assert Links(after[k], a, b);
    NewestLinkDecides(after, k, a, b);
  }

  /** The hook's fetch: pending requests in which the user is either party. */
  function FetchPending(rows: seq<FriendRequest>, me: UserId): (r: seq<FriendRequest>)
    ensures Sublist(r, rows)
    ensures forall x :: x in r <==> x in rows && x.status == Pending && (x.senderId == me || x.receiverId == me)
    ensures forall x :: multiset(r)[x] ==
              if x.status == Pending && (x.senderId == me || x.receiverId == me) then multiset(rows)[x] else 0
  {
    Filter((x: FriendRequest) => x.status == Pending && (x.senderId == me || x.receiverId == me), rows)
  }

  /** The hook's `requests` state after a (re)fetch: unchanged without a user
      or when the query fails. */
  function Refetch(previous: seq<FriendRequest>, user: Option<UserId>, table: Reply<seq<FriendRequest>>): (r: seq<FriendRequest>)
    ensures user.None? || table.Failed? ==> r == previous
    ensures user.Some? && table.Ok? ==> Sublist(r, table.value)
    ensures user.Some? && table.Ok? ==>
              forall x :: x in r <==> x in table.value && x.status == Pending
                                      && (x.senderId == user.value || x.receiverId == user.value)
    ensures user.Some? && table.Ok? ==>
              forall x :: multiset(r)[x] ==
                if x.status == Pending && (x.senderId == user.value || x.receiverId == user.value)
                then multiset(table.value)[x] else 0
  {
    match (user, table)
    case (Some(me), Ok(rows)) => FetchPending(rows, me)
    case _ => previous
  }

  /** The component's `pendingRequests`: requests still pending that were sent
      to the signed-in user. */
  function IncomingPending(requests: seq<FriendRequest>, user: Option<UserId>): (r: seq<FriendRequest>)
    ensures Sublist(r, requests)
    ensures forall x :: x in r <==> x in requests && x.status == Pending && user == Some(x.receiverId)
    ensures forall x :: multiset(r)[x] ==
              if x.status == Pending && user == Some(x.receiverId) then multiset(requests)[x] else 0
  {
    Filter((x: FriendRequest) => x.status == Pending && user == Some(x.receiverId), requests)
  }

  /** What the component lists after a fetch is exactly the pending requests
      addressed to the user, in table order. */
  lemma IncomingAfterFetch(rows: seq<FriendRequest>, me: UserId)
    ensures Sublist(IncomingPending(FetchPending(rows, me), Some(me)), rows)
    ensures forall x :: x in IncomingPending(FetchPending(rows, me), Some(me))
                        <==> x in rows && x.status == Pending && x.receiverId == me
  {
    SublistTrans(IncomingPending(FetchPending(rows, me), Some(me)), FetchPending(rows, me), rows);
  }
}

=== FILE: friend_suggestions.dfy ===
/** "People You May Know": building, ranking and trimming friend suggestions. */
module FriendSuggestions {
  import opened Wrappers
  import opened Users
  import opened Lists
  import opened Text
  import opened Sorting
  import opened FriendRequests

  /** A `profiles` row as the suggestion builder reads it. */
  datatype Profile = Profile(id: UserId, fullName: string, avatarUrl: string, fieldOfStudy: Option<string>)

  /** A `user_interests` row. */
  datatype Interest = Interest(userId: UserId, category: string)

  datatype Suggestion = Suggestion(
    id: UserId,
    fullName: string,
    avatarUrl: string,
    fieldOfStudy: string,
    commonInterests: nat,
    interests: seq<string>)

  /** The categories of `userId`, in table order. */
  function InterestsOf(all: seq<Interest>, userId: UserId): (r: seq<string>)
    ensures |r| <= |all|
    ensures forall c :: c in r <==> Interest(userId, c) in all
    ensures forall c :: multiset(r)[c] == multiset(all)[Interest(userId, c)]
  {
    if |all| == 0 then []
    else
      assert all == [all[0]] + all[1..];
      var rest := InterestsOf(all[1..], userId);
      if all[0].userId == userId then [all[0].category] + rest else rest
  }

  /** The positions of `interests` holding a category the user also has. */
  ghost function Shared(interests: seq<string>, mine: seq<string>): set<int> {
    set i | 0 <= i < |interests| && interests[i] in mine
  }

  /** One more category adds its position exactly when the user has it. */
  lemma SharedSnoc(interests: seq<string>, mine: seq<string>, c: string)
    ensures |Shared(interests + [c], mine)| == |Shared(interests, mine)| + (if c in mine then 1 else 0)
  {
    var s := interests + [c];
    var before, after := Shared(interests, mine), Shared(s, mine);
    var last := if c in mine then {|interests|} else {};
    forall i
      ensures i in after <==> i in before + last
    {
      if 0 <= i < |interests| {
        assert s[i] == interests[i];
      }
    }
    assert after == before + last;
  }

  /** `interests.filter(c => userInterests.includes(c)).length`, counted one
      category at a time from the end: the number of positions of
      `interests` whose category the user also has. */
  function CommonCount(interests: seq<string>, mine: seq<string>): (r: nat)
    ensures r == |Shared(interests, mine)|
    ensures r <= |interests|
    ensures (forall c :: c in interests ==> c in mine) ==> r == |interests|
    ensures (forall c :: c in interests ==> c !in mine) ==> r == 0
  {
    if |interests| == 0 then 0
    else
      var init, c := interests[..|interests| - 1], interests[|interests| - 1];
      assert interests == init + [c];
      SharedSnoc(init, mine, c);
      CommonCount(init, mine) + (if c in mine then 1 else 0)
  }

  /** The record pushed for one profile. */
  function SuggestionOf(p: Profile, all: seq<Interest>, mine: seq<string>): (r: Suggestion)
    ensures r.id == p.id && r.fullName == p.fullName && r.avatarUrl == p.avatarUrl
    ensures r.fieldOfStudy == (if p.fieldOfStudy.Some? then p.fieldOfStudy.value else "")
    ensures r.interests == InterestsOf(all, p.id)
    ensures r.commonInterests == |Shared(r.interests, mine)|
    ensures r.commonInterests <= |r.interests|
  {
    var interests := InterestsOf(all, p.id);
    Suggestion(p.id, p.fullName, p.avatarUrl, p.fieldOfStudy.GetOr(""), CommonCount(interests, mine), interests)
  }

  /** The reply of the relationship query `checkFriendshipStatus` makes for
      each profile id. Every call is a query of its own, so one profile's
      lookup can fail while another's succeeds. */
  type Lookup = UserId -> Reply<seq<FriendRequest>>

  /** A profile is suggested unless it is the user's own, or its relationship
      lookup reports it accepted or pending. */
  predicate Eligible(me: UserId, id: UserId, lookup: Lookup) {
    var status := FriendshipStatus(Some(me), id, lookup(id));
    id != me && status != Accepted && status != Pending
  }

  /** One record per profile, in table order, before any is skipped. */
  function Candidates(profiles: seq<Profile>, all: seq<Interest>, mine: seq<string>): seq<Suggestion> {
    seq(|profiles|, i requires 0 <= i < |profiles| => SuggestionOf(profiles[i], all, mine))
  }

  /** The suggestion-building loop over the profile table. */
  function Suggestions(me: UserId, profiles: seq<Profile>, lookup: Lookup,
                       all: seq<Interest>, mine: seq<string>): (r: seq<Suggestion>)
    ensures Sublist(r, Candidates(profiles, all, mine))
    ensures forall s :: s in r ==> s.id != me
    ensures forall s :: s in r ==> s.commonInterests <= |s.interests|
    ensures forall p :: p in profiles && Eligible(me, p.id, lookup) ==> SuggestionOf(p, all, mine) in r
  {
    if |profiles| == 0 then []
    else
      var rest := Suggestions(me, profiles[1..], lookup, all, mine);
      var keep := Eligible(me, profiles[0].id, lookup);
      SuggestionsSublistStep(profiles, all, mine, keep, rest);
      SuggestionsCoverStep(me, profiles, lookup, all, mine, rest);
      if keep then [SuggestionOf(profiles[0], all, mine)] + rest else rest
  }

  /** One step of the loop keeps the records an ordered sublist of the
      candidates. */
  lemma SuggestionsSublistStep(profiles: seq<Profile>, all: seq<Interest>, mine: seq<string>,
                               keep: bool, rest: seq<Suggestion>)
    requires |profiles| > 0
    requires Sublist(rest, Candidates(profiles[1..], all, mine))
    ensures Sublist(if keep then [SuggestionOf(profiles[0], all, mine)] + rest else rest,
                    Candidates(profiles, all, mine))
  {
    var c := Candidates(profiles, all, mine);
    assert c[0] == SuggestionOf(profiles[0], all, mine) && c[1..] == Candidates(profiles[1..], all, mine);
    SublistCons(c[0], rest, c);
  }

  /** One step of the loop keeps every eligible profile's record. */
  lemma SuggestionsCoverStep(me: UserId, profiles: seq<Profile>, lookup: Lookup,
                             all: seq<Interest>, mine: seq<string>, rest: seq<Suggestion>)
    requires |profiles| > 0
    requires forall p :: p in profiles[1..] && Eligible(me, p.id, lookup) ==> SuggestionOf(p, all, mine) in rest
    ensures var r := if Eligible(me, profiles[0].id, lookup) then [SuggestionOf(profiles[0], all, mine)] + rest else rest;
      forall p :: p in profiles && Eligible(me, p.id, lookup) ==> SuggestionOf(p, all, mine) in r
  {
    var ok := (p: Profile) => Eligible(me, p.id, lookup);
    var f := (p: Profile) => SuggestionOf(p, all, mine);
    CoverCons(profiles, ok, f, rest);
  }

  /** Every suggestion is built from an eligible profile of the table. */
  lemma {:induction false} SuggestedOnlyEligible(me: UserId, profiles: seq<Profile>, lookup: Lookup,
                                                 all: seq<Interest>, mine: seq<string>)
    ensures forall s :: s in Suggestions(me, profiles, lookup, all, mine) ==>
              exists p :: p in profiles && Eligible(me, p.id, lookup) && s == SuggestionOf(p, all, mine)
    decreases |profiles|
  {
    if |profiles| > 0 {
      SuggestedOnlyEligible(me, profiles[1..], lookup, all, mine);
      forall s | s in Suggestions(me, profiles, lookup, all, mine)
        ensures exists p :: p in profiles && Eligible(me, p.id, lookup) && s == SuggestionOf(p, all, mine)
      {
        if s !in Suggestions(me, profiles[1..], lookup, all, mine) {
          assert s == SuggestionOf(profiles[0], all, mine);
        } else {
          var p :| p in profiles[1..] && Eligible(me, p.id, lookup) && s == SuggestionOf(p, all, mine);
          assert p in profiles;
        }
      }
    }
  }

  /** Rejected and unknown relationships do not hide a profile. */
  lemma RejectedStillSuggested(me: UserId, profiles: seq<Profile>, lookup: Lookup,
                               all: seq<Interest>, mine: seq<string>, p: Profile)
    requires p in profiles && p.id != me
    requires FriendshipStatus(Some(me), p.id, lookup(p.id)) in {Rejected, NoStatus}
    ensures SuggestionOf(p, all, mine) in Suggestions(me, profiles, lookup, all, mine)
  {
  }

  /** The status lookup swallows errors, so a profile whose own lookup fails
      is suggested, a friend included, whatever the other lookups return. */
  lemma LookupFailureSuggestsEveryone(me: UserId, profiles: seq<Profile>, lookup: Lookup,
                                      all: seq<Interest>, mine: seq<string>)
    ensures forall p :: p in profiles && p.id != me && lookup(p.id).Failed? ==>
              SuggestionOf(p, all, mine) in Suggestions(me, profiles, lookup, all, mine)
  {
  }

  /** With no interests of the user's own loaded, every count is zero. */
  lemma NoOwnInterestsNoCommon(me: UserId, profiles: seq<Profile>, lookup: Lookup, all: seq<Interest>)
    ensures forall s :: s in Suggestions(me, profiles, lookup, all, []) ==> s.commonInterests == 0
  {
    SuggestedOnlyEligible(me, profiles, lookup, all, []);
  }

  /** `fetchSuggestions`: nothing is fetched without a user, and a failed
      `profiles` or `user_interests` query throws before `setSuggestions`,
      keeping the previous list. */
  function LoadSuggestions(previous: seq<Suggestion>, user: Option<UserId>, profiles: Reply<seq<Profile>>,
                           interests: Reply<seq<Interest>>, lookup: Lookup, mine: seq<string>): (r: seq<Suggestion>)
    ensures user.None? || profiles.Failed? || interests.Failed? ==> r == previous
    ensures user.Some? && profiles.Ok? && interests.Ok? ==>
              Sublist(r, Candidates(profiles.value, interests.value, mine))
              && (forall p :: p in profiles.value && Eligible(user.value, p.id, lookup) ==>
                    SuggestionOf(p, interests.value, mine) in r)
              && (forall s :: s in r ==> s.id != user.value)
    ensures user.Some? && profiles.Ok? && interests.Ok? ==>
              forall s :: s in r ==>
                exists p :: p in profiles.value && Eligible(user.value, p.id, lookup)
                            && s == SuggestionOf(p, interests.value, mine)
  {
    if user.None? || profiles.Failed? || interests.Failed? then previous
    else
      SuggestedOnlyEligible(user.value, profiles.value, lookup, interests.value, mine);
      Suggestions(user.value, profiles.value, lookup, interests.value, mine)
  }

  function CommonKey(s: Suggestion): int { s.commonInterests }
  function NameKey(s: Suggestion): string { s.fullName }
  function FieldKey(s: Suggestion): string { s.fieldOfStudy }

  /** `b.common_interests - a.common_interests < 0`: more common interests first. */
  predicate MoreThan(a: int, b: int) { a > b }

  lemma MoreThanIsTotal()
    ensures StrictTotalOrder(MoreThan)
  {
  }

  lemma StrLessIsTotal()
    ensures StrictTotalOrder(StrLess)
  {
    forall a: string
      ensures !StrLess(a, a)
    {
      StrLessIrreflexive(a);
    }
    forall a: string, b: string, c: string | StrLess(a, b) && StrLess(b, c)
      ensures StrLess(a, c)
    {
      StrLessTransitive(a, b, c);
    }
    forall a: string, b: string | a != b
      ensures StrLess(a, b) || StrLess(b, a)
    {
      StrLessConnected(a, b);
    }
  }

  /** `sortSuggestions`: a reordering of the list by the chosen key; an
      unknown key leaves the list as it is. */
  function SortSuggestions(s: seq<Suggestion>, filterBy: string): (r: seq<Suggestion>)
    ensures multiset(r) == multiset(s)
    ensures filterBy == "common_interests" ==>
              forall i, j :: 0 <= i < j < |r| ==> r[i].commonInterests >= r[j].commonInterests
    ensures filterBy == "alphabetical" ==>
              forall i, j :: 0 <= i < j < |r| ==> !StrLess(r[j].fullName, r[i].fullName)
    ensures filterBy == "field_of_study" ==>
              forall i, j :: 0 <= i < j < |r| ==> !StrLess(r[j].fieldOfStudy, r[i].fieldOfStudy)
    ensures filterBy !in ["common_interests", "alphabetical", "field_of_study"] ==> r == s
  {
    if filterBy == "common_interests" then
      MoreThanIsTotal();
      SortBySorted(s, CommonKey, MoreThan);
      SortBy(s, CommonKey, MoreThan)
    else if filterBy == "alphabetical" then
      StrLessIsTotal();
      SortBySorted(s, NameKey, StrLess);
      SortBy(s, NameKey, StrLess)
    else if filterBy == "field_of_study" then
      StrLessIsTotal();
      SortBySorted(s, FieldKey, StrLess);
      SortBy(s, FieldKey, StrLess)
    else s
  }

  /** Suggestions with the same number of common interests keep their order. */
  lemma CommonSortStable(s: seq<Suggestion>, k: int)
    ensures WithKey(SortSuggestions(s, "common_interests"), CommonKey, k) == WithKey(s, CommonKey, k)
  {
    SortByStable(s, CommonKey, MoreThan, k);
  }

  /** Suggestions with the same name keep their order under the name sort. */
  lemma NameSortStable(s: seq<Suggestion>, k: string)
    ensures WithKey(SortSuggestions(s, "alphabetical"), NameKey, k) == WithKey(s, NameKey, k)
  {
    StrLessIsTotal();
    SortByStable(s, NameKey, StrLess, k);
  }

  /** Suggestions with the same field keep their order under the field sort. */
  lemma FieldSortStable(s: seq<Suggestion>, k: string)
    ensures WithKey(SortSuggestions(s, "field_of_study"), FieldKey, k) == WithKey(s, FieldKey, k)
  {
    StrLessIsTotal();
    SortByStable(s, FieldKey, StrLess, k);
  }

  /** `slice(0, 3)`: the first three entries, or all of them. */
  function TopThree(s: seq<Suggestion>): (r: seq<Suggestion>)
    ensures |r| <= 3 && |r| <= |s|
    ensures r == s[..|r|]
    ensures |s| <= 3 ==> r == s
  {
    if |s| <= 3 then s else s[..3]
  }

  /** The "See More" link. */
  predicate ShowSeeMore(s: seq<Suggestion>) {
    |s| > 3
  }

  /** "See More" appears exactly when the shown three leave someone out. */
  lemma SeeMoreIffHidden(s: seq<Suggestion>, filterBy: string)
    ensures ShowSeeMore(s) <==> |TopThree(SortSuggestions(s, filterBy))| < |s|
  {
    var sorted := SortSuggestions(s, filterBy);
    assert |sorted| == |multiset(sorted)| == |multiset(s)| == |s|;
  }

  /** `handleSendRequest`: the row sent for `userId` and the remaining
      suggestions. The entry is dropped whether or not a user is signed in
      and whatever the insert's outcome. */
  function HandleSendRequest(user: Option<UserId>, suggestions: seq<Suggestion>, userId: UserId)
    : (r: (Option<NewRequest>, seq<Suggestion>))
    ensures r.0 == SendRequest(user, userId)
    ensures Sublist(r.1, suggestions)
    ensures forall s :: s in r.1 <==> s in suggestions && s.id != userId
    ensures forall s :: multiset(r.1)[s] == if s.id != userId then multiset(suggestions)[s] else 0
  {
    (SendRequest(user, userId), Filter((s: Suggestion) => s.id != userId, suggestions))
  }
}

=== FILE: lists.dfy ===
/** Order-preserving sublists and the filter that produces them. */
module Lists {

  /** `a` can be obtained from `b` by deleting elements, keeping the order of
      those that remain. */
  ghost predicate Sublist<T>(a: seq<T>, b: seq<T>)
    decreases |b|
  {
    |a| <= |b| &&
    (|a| == 0 || (a[0] == b[0] && Sublist(a[1..], b[1..])) || Sublist(a, b[1..]))
  }

  lemma {:induction false} SublistRefl<T>(a: seq<T>)
    ensures Sublist(a, a)
    decreases |a|
  {
    if |a| > 0 {
      SublistRefl(a[1..]);
    }
  }

  lemma {:induction false} SublistTrans<T>(a: seq<T>, b: seq<T>, c: seq<T>)
    requires Sublist(a, b) && Sublist(b, c)
    ensures Sublist(a, c)
    decreases |c|
  {
    if |a| == 0 {
    } else if b[0] == c[0] && Sublist(b[1..], c[1..]) {
      if a[0] == b[0] && Sublist(a[1..], b[1..]) {
        SublistTrans(a[1..], b[1..], c[1..]);
      } else {
        SublistTrans(a, b[1..], c[1..]);
      }
    } else {
      SublistTrans(a, b, c[1..]);
    }
  }

  /** Skipping or keeping the head of `b` extends a sublist of its tail. */
  lemma SublistCons<T>(x: T, a: seq<T>, b: seq<T>)
    requires |b| > 0 && Sublist(a, b[1..])
    ensures Sublist(a, b)
    ensures x == b[0] ==> Sublist([x] + a, b)
  {
    assert ([x] + a)[1..] == a;
  }

  /** Keeping `f(s[0])` when `ok(s[0])` extends to `s` a list that holds
      `f(x)` for every `x` of `s[1..]` satisfying `ok`. */
  lemma CoverCons<T, U>(s: seq<T>, ok: T -> bool, f: T -> U, rest: seq<U>)
    requires |s| > 0
    requires forall x :: x in s[1..] && ok(x) ==> f(x) in rest
    ensures forall x :: x in s && ok(x) ==> f(x) in (if ok(s[0]) then [f(s[0])] + rest else rest)
  {
    assert s == [s[0]] + s[1..];
  }

  /** `Array.prototype.filter`: the elements satisfying `p`, in their order. */
  function Filter<T(!new)>(p: T -> bool, s: seq<T>): (r: seq<T>)
    ensures Sublist(r, s)
    ensures forall x :: x in r <==> x in s && p(x)
    ensures forall i :: 0 <= i < |r| ==> p(r[i])
    ensures forall x :: multiset(r)[x] == if p(x) then multiset(s)[x] else 0
    ensures (forall i :: 0 <= i < |s| ==> p(s[i])) ==> r == s
  {
    if |s| == 0 then []
    else
      assert s == [s[0]] + s[1..];
      var rest := Filter(p, s[1..]);
      if p(s[0]) then [s[0]] + rest else rest
  }

  /** Filters by pointwise-equal predicates agree. */
  lemma {:induction false} FilterCongruent<T(!new)>(p: T -> bool, q: T -> bool, s: seq<T>)
    requires forall x :: p(x) == q(x)
    ensures Filter(p, s) == Filter(q, s)
    decreases |s|
  {
    if |s| > 0 {
      FilterCongruent(p, q, s[1..]);
    }
  }
}

=== FILE: sign_up.dfy ===
/** The sign-up form's schema: student e-mail pattern, length rules and the
    password confirmation. */
module SignUp {

  /** The literal tail of `/^[0-9]+@mvula\.univen\.ac\.za$/`. */
  const Domain := "@mvula.univen.ac.za"

  predicate IsDigit(c: char) {
    '0' <= c <= '9'
  }

  predicate AllDigits(s: string) {
    forall i :: 0 <= i < |s| ==> IsDigit(s[i])
  }

  /** The length of the longest all-digit prefix of `s`. */
  function LeadingDigits(s: string): (n: nat)
    ensures n <= |s|
    ensures AllDigits(s[..n])
    ensures n < |s| ==> !IsDigit(s[n])
  {
    if |s| == 0 || !IsDigit(s[0]) then 0
    else
      var n := 1 + LeadingDigits(s[1..]);
      assert s[..n] == [s[0]] + s[1..][..n - 1];
      n
  }

  /** The pattern as the scanner checks it: one or more digits, then exactly
      the domain, with nothing before or after. */
  predicate MatchesStudentEmail(s: string) {
    var n := LeadingDigits(s);
    n >= 1 && s[n..] == Domain
  }

  /** The language of the regular expression. */
  ghost predicate StudentEmail(s: string) {
    exists digits :: AllDigits(digits) && |digits| >= 1 && s == digits + Domain
  }

  /** The scanner accepts exactly the strings the anchored pattern describes. */
  lemma StudentEmailPattern(s: string)
    ensures MatchesStudentEmail(s) <==> StudentEmail(s)
  {
    var n := LeadingDigits(s);
    if MatchesStudentEmail(s) {
      assert s == s[..n] + Domain;
    }
    if StudentEmail(s) {
      var digits :| AllDigits(digits) && |digits| >= 1 && s == digits + Domain;
      assert s[|digits|] == '@';
      assert s[..|digits|] == digits;
      assert n == |digits|;
    }
  }

  /** Text after the domain is refused: the pattern is anchored at the end. */
  lemma NoTrailingText(digits: string, tail: string)
    requires AllDigits(digits) && |digits| >= 1 && |tail| > 0
    ensures !MatchesStudentEmail(digits + Domain + tail)
  {
    var s := digits + Domain + tail;
    var n := LeadingDigits(s);
    assert s[|digits|] == '@';
    assert s[..|digits|] == digits;
    assert n == |digits|;
    assert |s[n..]| > |Domain|;
  }

  datatype SignUpForm = SignUpForm(email: string, fullName: string, password: string, confirmPassword: string)

  datatype Field = Email | FullName | Password | ConfirmPassword

  /** One validation error, attached to a form field. */
  datatype Issue = Issue(field: Field, message: string)

  const EmailIssue := Issue(Email, "Email must be in format: studentnumber@mvula.univen.ac.za")
  const NameIssue := Issue(FullName, "Full name is required")
  const PasswordIssue := Issue(Password, "Password must be at least 6 characters")
  const MismatchIssue := Issue(ConfirmPassword, "Passwords don't match")

  /** The issues `formSchema` reports: each field rule independently, then
      the object refinement. Lengths are untrimmed. */
  function Issues(f: SignUpForm): (r: seq<Issue>)
    ensures EmailIssue in r <==> !MatchesStudentEmail(f.email)
    ensures NameIssue in r <==> |f.fullName| < 2
    ensures PasswordIssue in r <==> |f.password| < 6
    ensures MismatchIssue in r <==> f.password != f.confirmPassword
    ensures forall x :: x in r ==> x in [EmailIssue, NameIssue, PasswordIssue, MismatchIssue]
  {
    (if MatchesStudentEmail(f.email) then [] else [EmailIssue])
    + (if |f.fullName| >= 2 then [] else [NameIssue])
    + (if |f.password| >= 6 then [] else [PasswordIssue])
    + (if f.password == f.confirmPassword then [] else [MismatchIssue])
  }

  predicate Valid(f: SignUpForm) {
    Issues(f) == []
  }

  /** The form is accepted exactly when every rule holds. */
  lemma ValidIff(f: SignUpForm)
    ensures Valid(f) <==> StudentEmail(f.email) && |f.fullName| >= 2 && |f.password| >= 6
                          && f.password == f.confirmPassword
  {
    StudentEmailPattern(f.email);
    var r := Issues(f);
    if r != [] {
      assert r[0] in r;
    }
  }

  /** Once the field rules hold, the only possible error is the mismatch, and
      it is attached to `confirmPassword`. */
  lemma ConfirmationDecides(f: SignUpForm)
    requires MatchesStudentEmail(f.email) && |f.fullName| >= 2 && |f.password| >= 6
    ensures Valid(f) <==> f.password == f.confirmPassword
    ensures !Valid(f) ==> Issues(f) == [MismatchIssue] && Issues(f)[0].field == ConfirmPassword
  {
  }
}

=== FILE: sorting.dfy ===
/** A stable sort by key, the behaviour of `Array.prototype.sort` with a
    comparator that compares one key of each element. */
module Sorting {

  /** `lt` is a strict total order on keys. */
  ghost predicate StrictTotalOrder<K(!new)>(lt: (K, K) -> bool) {
    && (forall a :: !lt(a, a))
    && (forall a, b, c :: lt(a, b) && lt(b, c) ==> lt(a, c))
    && (forall a, b :: a != b ==> lt(a, b) || lt(b, a))
  }

  /** No element is strictly before an element that precedes it. */
  ghost predicate SortedBy<T, K>(s: seq<T>, key: T -> K, lt: (K, K) -> bool) {
    forall i, j :: 0 <= i < j < |s| ==> !lt(key(s[j]), key(s[i]))
  }

  /** Places `x` after the elements of `s` whose key is strictly before its
      own and before the rest. */
  function Insert<T, K>(x: T, s: seq<T>, key: T -> K, lt: (K, K) -> bool): (r: seq<T>)
    ensures |r| == |s| + 1
    ensures multiset(r) == multiset(s) + multiset{x}
  {
    if |s| == 0 then [x]
    else if lt(key(s[0]), key(x)) then
      assert s == [s[0]] + s[1..];
      [s[0]] + Insert(x, s[1..], key, lt)
    else [x] + s
  }

  /** Insertion sort: each element goes in front of the later elements with
      an equal key, so equal keys keep their input order. */
  function SortBy<T, K>(s: seq<T>, key: T -> K, lt: (K, K) -> bool): (r: seq<T>)
    ensures |r| == |s|
    ensures multiset(r) == multiset(s)
  {
    if |s| == 0 then []
    else
      assert s == [s[0]] + s[1..];
      Insert(s[0], SortBy(s[1..], key, lt), key, lt)
  }

  lemma NotBeforeTransitive<K(!new)>(lt: (K, K) -> bool, a: K, b: K, c: K)
    requires StrictTotalOrder(lt)
    requires !lt(c, b) && !lt(b, a)
    ensures !lt(c, a)
  {
    if a != b {
      assert lt(a, b);
    }
  }

  lemma {:induction false} InsertSorted<T, K(!new)>(x: T, s: seq<T>, key: T -> K, lt: (K, K) -> bool)
    requires StrictTotalOrder(lt)
    requires SortedBy(s, key, lt)
    ensures SortedBy(Insert(x, s, key, lt), key, lt)
    decreases |s|
  {
    var r := Insert(x, s, key, lt);
    if |s| == 0 {
    } else if lt(key(s[0]), key(x)) {
      var tail := Insert(x, s[1..], key, lt);
      InsertSorted(x, s[1..], key, lt);
      assert r == [s[0]] + tail;
      forall j | 0 < j < |r|
        ensures !lt(key(r[j]), key(r[0]))
      {
        assert r[j] in multiset(tail);
        assert r[j] in multiset(s[1..]) + multiset{x};
        if r[j] != x {
          assert r[j] in s[1..];
          var k :| 0 <= k < |s[1..]| && s[1..][k] == r[j];
          assert s[k + 1] == r[j];
        }
      }
    } else {
      assert r == [x] + s;
      forall j | 0 < j < |r|
        ensures !lt(key(r[j]), key(r[0]))
      {
        if j > 1 {
          NotBeforeTransitive(lt, key(x), key(s[0]), key(r[j]));
        }
      }
    }
  }

  lemma {:induction false} SortBySorted<T, K(!new)>(s: seq<T>, key: T -> K, lt: (K, K) -> bool)
    requires StrictTotalOrder(lt)
    ensures SortedBy(SortBy(s, key, lt), key, lt)
    decreases |s|
  {
    if |s| > 0 {
      SortBySorted(s[1..], key, lt);
      InsertSorted(s[0], SortBy(s[1..], key, lt), key, lt);
    }
  }

  /** The elements of `s` whose key is `k`, in order. */
  ghost function WithKey<T, K>(s: seq<T>, key: T -> K, k: K): seq<T> {
    if |s| == 0 then []
    else if key(s[0]) == k then [s[0]] + WithKey(s[1..], key, k)
    else WithKey(s[1..], key, k)
  }

  lemma {:induction false} InsertWithKey<T, K(!new)>(x: T, s: seq<T>, key: T -> K, lt: (K, K) -> bool, k: K)
    requires forall a :: !lt(a, a)
    ensures WithKey(Insert(x, s, key, lt), key, k)
         == if key(x) == k then [x] + WithKey(s, key, k) else WithKey(s, key, k)
    decreases |s|
  {
    if |s| > 0 && lt(key(s[0]), key(x)) {
      var r := Insert(x, s, key, lt);
      InsertWithKey(x, s[1..], key, lt, k);
      assert r[0] == s[0] && r[1..] == Insert(x, s[1..], key, lt);
    } else if |s| > 0 {
      var r := Insert(x, s, key, lt);
      assert r[0] == x && r[1..] == s;
    }
  }

  /** Stability: for every key, the elements carrying it appear in the sorted
      output in the same order as in the input. */
  lemma {:induction false} SortByStable<T, K(!new)>(s: seq<T>, key: T -> K, lt: (K, K) -> bool, k: K)
    requires forall a :: !lt(a, a)
    ensures WithKey(SortBy(s, key, lt), key, k) == WithKey(s, key, k)
    decreases |s|
  {
    if |s| > 0 {
      SortByStable(s[1..], key, lt, k);
      InsertWithKey(s[0], SortBy(s[1..], key, lt), key, lt, k);
    }
  }
}

=== FILE: study_groups.dfy ===
/** The study-groups page: the fetched list with its `joined` flags, joining,
    leaving, searching and creating. */
module StudyGroups {
  import opened Wrappers
  import opened Users
  import opened Lists
  import opened Text

  /** A `study_groups` row joined with its creator's `full_name`. */
  datatype GroupRow = GroupRow(
    id: string,
    name: string,
    description: string,
    createdAt: int,
    createdBy: UserId,
    creatorName: Option<string>)

  /** A group as the page holds it. */
  datatype StudyGroup = StudyGroup(
    id: string,
    name: string,
    description: string,
    createdAt: int,
    createdBy: UserId,
    creatorName: string,
    memberCount: int,
    joined: bool)

  /** `group.profiles?.full_name || 'Unknown'`: a missing or empty name is
      replaced. */
  function CreatorName(name: Option<string>): (r: string)
    ensures r != ""
    ensures name.Some? && name.value != "" ==> r == name.value
    ensures name.None? || name.value == "" ==> r == "Unknown"
  {
    if name.Some? && name.value != "" then name.value else "Unknown"
  }

  /** `formattedGroups`: one entry per fetched row, in fetch order. */
  function FormatGroups(rows: seq<GroupRow>, memberIds: seq<string>): (r: seq<StudyGroup>)
    ensures |r| == |rows|
    ensures forall i :: 0 <= i < |rows| ==>
              r[i].id == rows[i].id && r[i].name == rows[i].name && r[i].description == rows[i].description
              && r[i].createdAt == rows[i].createdAt && r[i].createdBy == rows[i].createdBy
              && r[i].creatorName == CreatorName(rows[i].creatorName)
    ensures forall i :: 0 <= i < |rows| ==> (r[i].joined <==> rows[i].id in memberIds)
    ensures forall i :: 0 <= i < |rows| ==> r[i].memberCount == 0
  {
    seq(|rows|, i requires 0 <= i < |rows| =>
      var g := rows[i];
      StudyGroup(g.id, g.name, g.description, g.createdAt, g.createdBy, CreatorName(g.creatorName), 0, g.id in memberIds))
  }

  /** `fetchStudyGroups`: the list is replaced only when both queries succeed. */
  function Refresh(previous: seq<StudyGroup>, groups: Reply<seq<GroupRow>>, memberships: Reply<seq<string>>)
    : (r: seq<StudyGroup>)
    ensures groups.Failed? || memberships.Failed? ==> r == previous
    ensures groups.Ok? && memberships.Ok? ==> r == FormatGroups(groups.value, memberships.value)
  {
    match (groups, memberships)
    case (Ok(rows), Ok(ids)) => FormatGroups(rows, ids)
    case _ => previous
  }

  /** No member count is negative. */
  predicate CountsValid(groups: seq<StudyGroup>) {
    forall g :: g in groups ==> g.memberCount >= 0
  }

  /** `handleJoinGroup`: after a successful insert the group is marked joined
      and counted once more; nothing else changes. */
  function Join(groups: seq<StudyGroup>, groupId: string, reply: Reply<()>): (r: seq<StudyGroup>)
    ensures |r| == |groups|
    ensures reply.Failed? ==> r == groups
    ensures forall i :: 0 <= i < |groups| && groups[i].id != groupId ==> r[i] == groups[i]
    ensures reply.Ok? ==> forall i :: 0 <= i < |groups| && groups[i].id == groupId ==>
              r[i] == groups[i].(joined := true, memberCount := groups[i].memberCount + 1)
    ensures CountsValid(groups) ==> CountsValid(r)
  {
    if reply.Failed? then groups
    else
      seq(|groups|, i requires 0 <= i < |groups| =>
        var g := groups[i];
        if g.id == groupId then g.(joined := true, memberCount := g.memberCount + 1) else g)
  }

  /** `a` and `b` describe the same group, whatever their membership fields. */
  predicate SameGroup(a: StudyGroup, b: StudyGroup) {
    a.id == b.id && a.name == b.name && a.description == b.description && a.createdAt == b.createdAt
    && a.createdBy == b.createdBy && a.creatorName == b.creatorName
  }

  /** `handleLeaveGroup`: after a successful delete the group is marked not
      joined and its count drops by one but never below zero. */
  function Leave(groups: seq<StudyGroup>, groupId: string, reply: Reply<()>): (r: seq<StudyGroup>)
    ensures |r| == |groups|
    ensures reply.Failed? ==> r == groups
    ensures forall i :: 0 <= i < |groups| && groups[i].id != groupId ==> r[i] == groups[i]
    ensures reply.Ok? ==> forall i :: 0 <= i < |groups| && groups[i].id == groupId ==>
              SameGroup(r[i], groups[i]) && !r[i].joined && r[i].memberCount >= 0
              && (groups[i].memberCount >= 1 ==> r[i].memberCount == groups[i].memberCount - 1)
    ensures CountsValid(groups) ==> CountsValid(r)
  {
    if reply.Failed? then groups
    else
      seq(|groups|, i requires 0 <= i < |groups| =>
        var g := groups[i];
        if g.id == groupId then g.(joined := false, memberCount := if g.memberCount - 1 > 0 then g.memberCount - 1 else 0)
        else g)
  }

  /** Leaving right after joining restores every count; only the joined flag
      of the group is now false. */
  lemma LeaveAfterJoin(groups: seq<StudyGroup>, groupId: string)
    requires CountsValid(groups)
    ensures var r := Leave(Join(groups, groupId, Ok(())), groupId, Ok(()));
            |r| == |groups|
            && forall i :: 0 <= i < |groups| ==>
                 r[i] == if groups[i].id == groupId then groups[i].(joined := false) else groups[i]
  {
    var joined := Join(groups, groupId, Ok(()));
    var r := Leave(joined, groupId, Ok(()));
    forall i | 0 <= i < |groups|
      ensures r[i] == if groups[i].id == groupId then groups[i].(joined := false) else groups[i]
    {
      if groups[i].id == groupId {
        assert groups[i] in groups;
        assert joined[i].memberCount == groups[i].memberCount + 1;
      }
    }
  }

  /** Leaving a group nobody is counted in keeps the count at zero. */
  lemma LeaveAtZero(groups: seq<StudyGroup>, groupId: string, i: nat)
    requires i < |groups| && groups[i].id == groupId && groups[i].memberCount == 0
    ensures Leave(groups, groupId, Ok(()))[i].memberCount == 0
  {
  }

  /** The search matches the name or the description, ignoring ASCII case. */
  predicate Matches(g: StudyGroup, term: string) {
    Contains(Lower(g.name), Lower(term)) || Contains(Lower(g.description), Lower(term))
  }

  /** `filteredGroups`. */
  function FilterGroups(groups: seq<StudyGroup>, term: string): (r: seq<StudyGroup>)
    ensures Sublist(r, groups)
    ensures forall g :: g in r <==> g in groups && Matches(g, term)
    ensures forall g :: multiset(r)[g] == if Matches(g, term) then multiset(groups)[g] else 0
  {
    Filter((g: StudyGroup) => Matches(g, term), groups)
  }

  /** An empty search shows every group in order. */
  lemma EmptySearchKeepsAll(groups: seq<StudyGroup>)
    ensures FilterGroups(groups, "") == groups
  {
    forall g: StudyGroup
      ensures Matches(g, "")
    {
      ContainsEmpty(Lower(g.name));
    }
  }

  /** The search ignores the case of the term. */
  lemma SearchIgnoresTermCase(groups: seq<StudyGroup>, term: string)
    ensures FilterGroups(groups, Lower(term)) == FilterGroups(groups, term)
  {
    LowerIdempotent(term);
    FilterCongruent((g: StudyGroup) => Matches(g, Lower(term)), (g: StudyGroup) => Matches(g, term), groups);
  }

  /** The row inserted by `handleCreateGroup`; name and description are sent
      as typed, untrimmed. */
  datatype NewGroup = NewGroup(name: string, description: string, createdBy: Option<UserId>)

  /** A `study_group_members` row. */
  datatype Membership = Membership(groupId: string, userId: Option<UserId>, role: string)

  /** `handleCreateGroup`'s check and insert: nothing when the name or the
      description is blank after trimming. */
  function CreateGroup(user: Option<UserId>, name: string, description: string): (r: Option<NewGroup>)
    ensures r.None? <==> IsBlank(name) || IsBlank(description)
    ensures r.Some? ==> r.value == NewGroup(name, description, user)
  {
    if IsBlank(name) || IsBlank(description) then None else Some(NewGroup(name, description, user))
  }

  /** A name or description made only of white space is refused. */
  lemma CreateRefusesWhiteSpace(user: Option<UserId>, name: string, description: string)
    ensures CreateGroup(user, name, description).None? <==>
              (forall i :: 0 <= i < |name| ==> IsSpace(name[i]))
              || (forall i :: 0 <= i < |description| ==> IsSpace(description[i]))
  {
    BlankIffAllSpace(name);
    BlankIffAllSpace(description);
  }

  /** The `study_group_members` row the page inserts: the creator of a new
      group joins it as its admin, anyone joining later as an ordinary member. */
  function MembershipRow(groupId: string, user: Option<UserId>, creating: bool): (r: Membership)
    ensures r.groupId == groupId && r.userId == user
    ensures r.role == "admin" <==> creating
    ensures r.role == "member" <==> !creating
  {
    Membership(groupId, user, if creating then "admin" else "member")
  }
}

=== FILE: text.dfy ===
/** String helpers the pages rely on: `trim`, ASCII case maps, `includes`,
    and a lexicographic order standing in for `localeCompare`. */
module Text {

  /** The characters `String.prototype.trim` strips: ECMAScript WhiteSpace
      and LineTerminator code points. */
  predicate IsSpace(c: char) {
    c == ' ' || ('\t' <= c <= '\r') || c == '\U{A0}' || c == '\U{1680}'
    || ('\U{2000}' <= c <= '\U{200A}') || c == '\U{2028}' || c == '\U{2029}'
    || c == '\U{202F}' || c == '\U{205F}' || c == '\U{3000}' || c == '\U{FEFF}'
  }

  function TrimStart(s: string): (r: string)
    ensures |r| <= |s| && r == s[|s| - |r|..]
    ensures forall i :: 0 <= i < |s| - |r| ==> IsSpace(s[i])
    ensures |r| > 0 ==> !IsSpace(r[0])
    decreases |s|
  {
    if |s| > 0 && IsSpace(s[0]) then TrimStart(s[1..]) else s
  }

  function TrimEnd(s: string): (r: string)
    ensures |r| <= |s| && r == s[..|r|]
    ensures forall i :: |r| <= i < |s| ==> IsSpace(s[i])
    ensures |r| > 0 ==> !IsSpace(r[|r| - 1])
    decreases |s|
  {
    if |s| > 0 && IsSpace(s[|s| - 1]) then TrimEnd(s[..|s| - 1]) else s
  }

  /** `r` is the slice of `s` starting at `i`, and everything of `s` outside
      that slice is white space. */
  ghost predicate SpaceAround(s: string, r: string, i: int) {
    0 <= i <= |s| - |r| && r == s[i..i + |r|]
    && (forall k :: 0 <= k < i ==> IsSpace(s[k]))
    && (forall k :: i + |r| <= k < |s| ==> IsSpace(s[k]))
  }

  /** `s.trim()`: the slice of `s` left after dropping leading and trailing
      white space. */
  function Trim(s: string): (r: string)
    ensures exists i :: SpaceAround(s, r, i)
    ensures |r| > 0 ==> !IsSpace(r[0]) && !IsSpace(r[|r| - 1])
  {
    var t := TrimStart(s);
    var r := TrimEnd(t);
    assert SpaceAround(s, r, |s| - |t|);
    r
  }

  /** A form field that JavaScript treats as missing after `.trim()`. */
  predicate IsBlank(s: string) {
    Trim(s) == ""
  }

  lemma BlankIffAllSpace(s: string)
    ensures IsBlank(s) <==> forall i :: 0 <= i < |s| ==> IsSpace(s[i])
  {
    var r := Trim(s);
    if r != "" {
      var i :| SpaceAround(s, r, i);
      assert s[i] == r[0];
    }
  }

  function LowerChar(c: char): char {
    if 'A' <= c <= 'Z' then (c as int + 32) as char else c
  }

  function UpperChar(c: char): char {
    if 'a' <= c <= 'z' then (c as int - 32) as char else c
  }

  /** `s.toLowerCase()` restricted to the ASCII letters. */
  function Lower(s: string): (r: string)
    ensures |r| == |s|
    ensures forall i :: 0 <= i < |s| ==> r[i] == LowerChar(s[i])
  {
    seq(|s|, i requires 0 <= i < |s| => LowerChar(s[i]))
  }

  lemma LowerIdempotent(s: string)
    ensures Lower(Lower(s)) == Lower(s)
  {
  }

  /** `needle` occupies the first `|needle|` characters of `hay`. */
  predicate IsPrefix(needle: string, hay: string) {
    |needle| <= |hay| && hay[..|needle|] == needle
  }

  /** `needle` occurs in `hay` starting at index `i`. */
  ghost predicate OccursAt(hay: string, needle: string, i: int) {
    0 <= i <= |hay| - |needle| && hay[i..i + |needle|] == needle
  }

  /** `hay.includes(needle)`. */
  function Contains(hay: string, needle: string): (r: bool)
    ensures r <==> exists i :: OccursAt(hay, needle, i)
    decreases |hay|
  {
    if IsPrefix(needle, hay) then
      assert OccursAt(hay, needle, 0);
      true
    else if |hay| == 0 then false
    else
      var r := Contains(hay[1..], needle);
      assert forall i :: OccursAt(hay[1..], needle, i) <==> OccursAt(hay, needle, i + 1);
      assert !OccursAt(hay, needle, 0);
      assert forall i :: OccursAt(hay, needle, i) ==> i == 0 || OccursAt(hay[1..], needle, i - 1);
      r
  }

  lemma ContainsEmpty(hay: string)
    ensures Contains(hay, "")
  {
  }

  /** Lexicographic order on code points: the model's stand-in for
      `a.localeCompare(b) < 0`. */
  predicate StrLess(a: string, b: string)
    decreases |a|
  {
    |b| > 0 && (|a| == 0 || a[0] < b[0] || (a[0] == b[0] && StrLess(a[1..], b[1..])))
  }

  lemma {:induction false} StrLessIrreflexive(a: string)
    ensures !StrLess(a, a)
    decreases |a|
  {
    if |a| > 0 {
      StrLessIrreflexive(a[1..]);
    }
  }

  lemma {:induction false} StrLessTransitive(a: string, b: string, c: string)
    requires StrLess(a, b) && StrLess(b, c)
    ensures StrLess(a, c)
    decreases |a|
  {
    if |a| > 0 && a[0] == b[0] && b[0] == c[0] {
      StrLessTransitive(a[1..], b[1..], c[1..]);
    }
  }

  lemma {:induction false} StrLessConnected(a: string, b: string)
    requires a != b
    ensures StrLess(a, b) || StrLess(b, a)
    decreases |a|
  {
    if |a| > 0 && |b| > 0 && a[0] == b[0] {
      assert a == [a[0]] + a[1..] && b == [b[0]] + b[1..];
      StrLessConnected(a[1..], b[1..]);
    }
  }
}

=== FILE: users.dfy ===
/** Identity shared by every page. */
module Users {
  /** The id of a signed-in user: the auth user's uuid, which is also the
      `profiles` row id. */
  type UserId = string
}

=== FILE: wrappers.dfy ===
/** Small failure-carrying datatypes shared by every page model. */
module Wrappers {

  /** A value that may be absent: JavaScript's `null` / `undefined`. */
  datatype Option<+T> = None | Some(value: T) {
    function GetOr(default: T): T {
      match this
      case Some(v) => v
      case None => default
    }
  }

  /** The reply of one backend call: the rows it returned, or an error that
      the caller catches. */
  datatype Reply<+T> = Ok(value: T) | Failed
}
